=== FILE: README.md ===
# smallsh front end in Dafny

A model of the command-line front end of `smallsh`, a small interactive shell
written in C (`v1.c`), together with its foreground-only mode. The shell reads
a line, splits it with `strtok(str, " \n")`, expands `$$` to its own pid, builds
a command descriptor (argument list, optional input and output paths,
background flag), and hands it to `cmdList`, which runs `exit`, `cd`, `status`,
a comment, or an external program. A SIGTSTP handler toggles a foreground-only
flag that makes `&` ineffective.

Everything here is pure: the pid, `HOME` and the operating system's work are
parameters or effects that a step asks for.

| file | module | models |
|---|---|---|
| `optional.dfy` | `Optional` | a possibly-NULL pointer |
| `numerals.dfy` | `Numerals` | the `%d` conversion and reading it back |
| `lexer.dfy` | `Lexer` | repeated `strtok(…, " \n")` |
| `expansion.dfy` | `Expansion` | the `$$` rewrite at the loop head |
| `parser.dfy` | `Parser` | `charCheck` and the loop of `processInput` |
| `builtins.dfy` | `Builtins` | `cmdList`, `changeDir`, `printStatus` |
| `mode.dfy` | `Mode` | `handle_SIGTSTP`, the wait decision, the background-pid line |
| `shell.dfy` | `Shell` | the interpreter state across lines and stop signals |

How parsing is stated. `Lexer.NextToken` is one `strtok` call, and `Lexer.Tokens`
repeats it until it finds nothing more. `Parser.Segment`
groups them into clauses, as the loop consumes them: a word, `>` or `<` with
the token it took, or `&`. `Parser.Describe` folds the clauses into the
descriptor, one loop pass (`Parser.Absorb`) per clause. `Parser.Parse` composes
the three. `Parser.ProcessInput` is the C loop itself, written as a `while`
loop, and is proved to compute `Parse`. Expansion never changes how a token is
classified, because an expanded token ends in a digit. So grouping does not
depend on the pid, and only the words are expanded.

A line is modelled as its bytes: each `char` stands for one byte of the C
string, so a UTF-8 character of several bytes is several `char`s. Read this
way, the tokenizer, `charCheck`, the `#` test and the cut of the last two
bytes in `$$` expansion match the C code exactly.

Undefined behaviour in the C code is made explicit:

- `input[512]` is written without a bound check. More than 512 ordinary
  words give `Parser.TooManyWords`, and the shell step reports
  `Undefined(WordOverflow)`.
- A line with tokens but no ordinary word (`&`, `> f`) leaves `args` empty.
  `cmdList` then calls `strcmp` on a NULL `key[0]`. `Builtins.Dispatch` returns
  `NoCommand` for it, and the shell step reports `Undefined(MissingCommand)`.
- `args[size] = NULL` writes one slot past the `char *args[size]` array.
  `Parser.Argv` gives the vector the `size + 1` slots that were evidently
  intended: the arguments, then the terminator. `cd` reads its target from
  slot 1 of that vector, as `cmdList` reads `key[1]`.

Where the program's own comments and its code disagree, the model follows the code:

- `status` always prints `exit status 0`. `exitStatus` is assigned only in the
  forked child (v1.c:131-140), so the parent's copy never changes. The comment
  at v1.c:43-44 says it reports "the last run foreground process".
- `$$` is detected anywhere in a token (`strstr`), and the last two characters
  are always the ones cut. So `a$$b` becomes `a$<pid>`. The comment at v1.c:306
  says the code is "assuming $$ was at the end of the token".
- `&` counts in any position.
- A `>` or `<` that starts a loop pass and ends the line sets its path to
  absent, which clears a path set earlier on the same line. An operator that is
  itself the path of the `>` or `<` before it is not such a case: `ls > >`
  writes to a file named `>`.

## Model

| member | source | states |
|---|---|---|
| Numerals.Decimal | v1.c:309 | the pid's `%d` text is non-empty, all digits, and has no leading zero |
| Numerals.ValueOfDecimal | v1.c:309 | reading the digits of the pid's text gives back the pid |
| Numerals.DecimalInjective | v1.c:309 | different pids are written differently |
| Numerals.FormatIntRoundTrip | v1.c:45 | for every int, negative ones included, `ParseInt` of the text `%d` writes returns that int |
| Lexer.SkipDelims | v1.c:288 | strtok never skips more than the line |
| Lexer.SkipDelimsStops | v1.c:288 | the skip stops at a non-delimiter or at the end of the line |
| Lexer.SkipDelimsSplits | v1.c:288 | what strtok skips is exactly a leading run of spaces and newlines, and what remains is the rest of the line |
| Lexer.WordLen | v1.c:288 | a token ends at a space or newline, or at the end of the line |
| Lexer.WordLenNoDelims | v1.c:288 | a token holds no space or newline |
| Lexer.WordThen | v1.c:288-341 | a token followed by the end of the line or by a delimiter is what the next strtok call returns, and tokenizing resumes just after that delimiter |
| Lexer.TokensAreTokens | v1.c:288 | every token strtok returns is non-empty and holds no space or newline |
| Lexer.TokensEmptyIff | v1.c:288-298 | a line yields no token exactly when it is empty or only spaces and newlines |
| Lexer.TokensContents | v1.c:288 | the tokens, concatenated, are the line with its spaces and newlines removed |
| Lexer.LeadingDelimsIgnored | v1.c:288 | any run of spaces and newlines before the text changes nothing |
| Lexer.LastWord | v1.c:288 | a token at the end of the line, after any run of delimiters, is the only token left |
| Lexer.SeparatedWord | v1.c:288-341 | a token followed by any non-empty run of spaces and newlines is split off from the rest of the line, so runs of delimiters separate exactly as one does |
| Lexer.TokensOfWeave | v1.c:288-341 | any list of tokens, laid out with any leading run, any non-empty runs between tokens and any trailing run, is tokenized back into itself |
| Lexer.TrailingDelimsIgnored | v1.c:288 | trailing spaces and newlines, such as the newline fgets keeps, do not change the tokens |
| Lexer.TokensOfJoin | v1.c:288 | any list of tokens written out with single spaces is tokenized back into itself |
| Expansion.HasMarkerIff | v1.c:304 | the strstr test succeeds exactly when `$$` occurs at some position of the token |
| Expansion.ExpandTrailingMarker | v1.c:304-309 | a token `p$$` becomes `p` followed by the decimal pid |
| Expansion.ExpandCutsLastTwo | v1.c:304-309 | wherever `$$` occurs, the token loses its last two characters and gains the pid |
| Expansion.ExpandUnmarked | v1.c:304 | a token without `$$` is unchanged |
| Expansion.ExpandSingleReplacement | v1.c:304-309 | `$$$$` becomes `$$<pid>` and `$$` becomes `<pid>`: one replacement only |
| Expansion.ExpandedEndsInDigit | v1.c:307-309 | an expanded token ends in a digit, namely the last digit of the decimal pid |
| Parser.CharCheck | v1.c:259-279 | the code is 1 exactly for `>`, 2 exactly for `<`, 3 exactly for `&`, and 0 otherwise |
| Parser.OperatorsAreExact | v1.c:259-279 | only one-character tokens are operators; `>>`, `<<` and `&&` are ordinary words |
| Parser.ExpandKeepsClass | v1.c:304-314 | classifying a token after expansion gives the same code as before it |
| Parser.Segment | v1.c:313-341 | the loop's grouping loses and reorders no token, a redirection's path is the very next token, and a path is missing only at the end of the line |
| Parser.SegmentOfFlatten | v1.c:313-341 | the grouping is unique: a well-formed clause list written out as tokens is grouped back into itself |
| Parser.DescribeAppend | v1.c:316-341 | over two pieces of a line, the arguments concatenate, background is the or of both, and each path comes from the later piece if it redirects at all |
| Parser.BackgroundIffAmpersand | v1.c:330-335 | background is set exactly when an `&` clause occurs anywhere |
| Parser.UnredirectedPathsAbsent | v1.c:289-290 | without a `>` or `<` clause the matching path stays absent |
| Parser.OutputLastWins | v1.c:316-322 | the last `>` decides the output path, which is its raw next token or absent |
| Parser.InputLastWins | v1.c:323-329 | the last `<` decides the input path in the same way |
| Parser.ArgsAreWords | v1.c:337-350 | the arguments are exactly the ordinary words, each expanded, in their original order |
| Parser.RedirectTargetRaw | v1.c:316-329 | the token after `>` or `<` is taken raw, even if it is an operator or holds `$$`, and never becomes an argument |
| Parser.DanglingRedirectClearsOutput | v1.c:316-322 | a `>` that starts a loop pass and ends the line (not itself the path of an operator before it) leaves the output path absent, whatever came before |
| Parser.ParseBlankIff | v1.c:288-298 | a line is blank, and returns before any dispatch, exactly when it holds only spaces and newlines |
| Parser.ParseIgnoresNewline | v1.c:288 | a trailing newline does not change the parse |
| Parser.ParsedCommand | v1.c:301-353 | for a parsed line, the arguments are its expanded ordinary words in order, and background holds exactly when `&` occurs |
| Parser.SingleWordLine | v1.c:301-353 | a line of one ordinary word without `$$` is that command alone, in the foreground, without paths |
| Parser.LoneAmpersandLine | v1.c:330-353 | the line `&` is a background command with no argument at all |
| Parser.ProcessInput | v1.c:281-353 | the while loop over the tokens computes exactly the declarative parse, overflow of `input[512]` included |
| Parser.ArgvRoundTrip | v1.c:344-353 | the vector holds every argument in order and the terminator right after them, so its argument count is the number of words |
| Builtins.Dispatch | v1.c:216-246 | no command exactly for an empty argument list; exit, cd and status exactly for those first words; a comment exactly for a first word starting with `#`; external otherwise |
| Builtins.FirstWordDecides | v1.c:221-244 | two argument lists with the same first word take the same branch, whatever follows and whatever `HOME` is |
| Builtins.ChangeDirChoosesTarget | v1.c:196-203 | cd goes to its first argument if there is one, otherwise to `HOME`; later arguments are ignored |
| Builtins.StatusTextRoundTrip | v1.c:45 | the status line is `exit status `, then a number that reads back as the status, then a newline |
| Builtins.StatusTextZero | v1.c:45 | the status line for status 0 is `exit status 0` and a newline |
| Mode.Toggle | v1.c:24-33 | the flag flips, and the message announces the mode just entered |
| Mode.ToggleTwice | v1.c:24-33 | two toggles restore the flag, and the two messages written are the entering one and the exiting one |
| Mode.BackgroundNoticeInjective | v1.c:156 | the background-pid line names its child unambiguously |
| Shell.NoticeIffBackground | v1.c:152-156 | a spawned command's pid is printed exactly when it asked for the background and foreground-only mode is off, as the background-pid line for that child |
| Shell.Step | v1.c:131-153 | a line leaves the interpreter state unchanged; a stop signal flips only the flag; a spawned command runs without waiting exactly when it asked for the background and the mode is off |
| Shell.RunKeepsExitStatus | v1.c:131-140 | no sequence of lines and signals changes the recorded exit status |
| Shell.FirstWordEffect | v1.c:216-245 | for a parsed line, first word `exit` ends the interpreter, `cd` changes to its first argument or else to `HOME`, a word starting with `#` does nothing, and any other non-built-in word spawns exactly the parsed command, asynchronously exactly when it asked for the background and the mode is off |
| Shell.StatusLinePrints | v1.c:232-236 | a line whose first word is `status` prints the status line of the current state |
| Shell.StatusAlwaysZero | v1.c:41-47 | after any sequence of events from the start, `status` prints `exit status 0` |
| Shell.BlankLineDoesNothing | v1.c:295-298 | a line of only spaces and newlines has no effect and changes no state |
| Shell.NoWordIsUndefined | v1.c:221 | a parsed line with no ordinary word reaches the NULL `key[0]` and is reported as undefined |
| Shell.LoneAmpersandIsUndefined | v1.c:330-356 | the line `&` is such a line |
| Shell.StopTwiceRestores | v1.c:24-36 | two stop signals restore the state; the first prints the message for the mode entered, the second the message for the mode left |
| Shell.StopSignalFlipsWaiting | v1.c:153-165 | for a line asking for the background, a stop signal in between turns waiting into not waiting and back, for the same command |

## Left out

- Process creation and the child side (v1.c:61-147): `fork`, `execvp`, `open`, `dup2` and `fcntl` are operating-system plumbing. A step only returns `Spawn(cmd, async)`. This also leaves out that a failed `fork` ends the interpreter with `exit(1)`.
- Waiting and reaping (v1.c:164-185): `waitpid`, the `WIFSIGNALED` report on a status that may never have been set, and the wait-any sweep depend on child timing.
- Signal installation and delivery (v1.c:38, 75-76, 366-380): these are asynchronous. Only the handler's flag flip and message are modelled, as a `StopSignal` event. The handler's `raise(SIGINT)` (v1.c:38) has no effect, because the interpreter ignores SIGINT (v1.c:368-373); a read interrupted by SIGTSTP resumes because of `SA_RESTART` (v1.c:379).
- `exitAll` (v1.c:206-214): `kill(getgid(), SIGKILL)` signals the process whose pid equals the real group id, not the interpreter's process group (only a group id of 0 would mean the caller's group). It and `exit(0)` become the `Terminate` effect.
- `chdir` and `getenv` (v1.c:196-203): these become the `ChangeDirectory` effect carrying the chosen target. A failing `chdir` is ignored by the C code, so nothing further is modelled.
- The prompt loop (v1.c:248-257, 382-386): `malloc`, `printf(":")`, `fgets` and `free` are I/O. The model parses a line of any length, not only the 2047 characters `fgets` reads.
- The buffer mechanics of `$$` (v1.c:307-309): `sprintf` writes the token into itself, and its closing NUL lands `p + d` characters into the token, where `p` is the length left after the cut (two less than the token's length) and `d` the number of pid digits. When a delimiter followed the token, `strtok` resumes `p + 3` characters in, past the delimiter it overwrote. With a pid of three or more digits, `strtok` then meets that NUL (v1.c:340), so every token after the first `$$` token is dropped. With four or more digits, it first reads one spurious token, the pid's digits from the fourth on. This happens even for `echo $$` at the end of a typed line, because the newline `fgets` keeps was the overwritten delimiter. When nothing followed the token (a last line without its newline, or one that fills the `fgets` buffer), `strtok` resumes at the token's end, `p + 2` characters in. With a pid of three or more digits it then reads one spurious token, the pid's digits from the third on: `echo $$` without a newline and pid 12345 gives the arguments `echo 12345 345`. The model treats expansion as a pure function and keeps the later tokens as the evident intent.
- Parser.ArgvRoundTrip: `args[size] = NULL` (v1.c:345-353) stores one slot past the `char *args[size]` array. The model gives the vector the `size + 1` slots evidently intended, with no fault outcome for that store.
- A NUL byte inside the line ends the C string. The model takes the line as the text before any NUL.

=== FILE: builtins.dfy ===
/** The built-in dispatcher `cmdList`, the target choice of `changeDir`, and
    the line `printStatus` writes. */
module Builtins {
  import opened Optional
  import opened Numerals
  import opened Parser

  /** `strncmp(word, "#", 1) == 0`: the word starts with `#`. */
  predicate IsComment(w: string) {
    |w| > 0 && w[0] == '#'
  }

  predicate IsBuiltinName(w: string) {
    w == "exit" || w == "cd" || w == "status"
  }

  /** Which branch of `cmdList` a command takes. `NoCommand` stands for the
      case the C code does not handle: no ordinary word, so `key[0]` is the
      NULL terminator and `strcmp` dereferences it. */
  datatype Builtin =
    | Exit
    | ChangeDir(target: Option<string>)
    | Status
    | Comment
    | External
    | NoCommand

  /** `changeDir`: the given path, or `HOME` (itself possibly unset) when the
      token is NULL. */
  function ChangeDirTarget(token: Option<string>, home: Option<string>): Option<string>
  {
    if token.None? then home else token
  }

  /** `cmdList`: the checks run in the order exit, cd, status, comment, and
      only the first word is consulted; cd reads `key[1]`, which is the
      terminator when cd has no argument. */
  function Dispatch(args: seq<string>, home: Option<string>): (b: Builtin)
    ensures b == NoCommand <==> args == []
    ensures b == Exit <==> args != [] && args[0] == "exit"
    ensures b.ChangeDir? <==> args != [] && args[0] == "cd"
    ensures b == Status <==> args != [] && args[0] == "status"
    ensures b == Comment <==> args != [] && IsComment(args[0])
    ensures b == External <==> args != [] && !IsBuiltinName(args[0]) && !IsComment(args[0])
  {
    if args == [] then NoCommand
    else if args[0] == "exit" then Exit
    else if args[0] == "cd" then ChangeDir(ChangeDirTarget(Argv(args)[1], home))
    else if args[0] == "status" then Status
    else if IsComment(args[0]) then Comment
    else External
  }

  /** The two outcomes are the same branch of the dispatcher. */
  predicate SameBranch(x: Builtin, y: Builtin) {
    && (x.Exit? <==> y.Exit?)
    && (x.ChangeDir? <==> y.ChangeDir?)
    && (x.Status? <==> y.Status?)
    && (x.Comment? <==> y.Comment?)
    && (x.External? <==> y.External?)
    && (x.NoCommand? <==> y.NoCommand?)
  }

  /** Only the first word decides the branch; the rest of the line and the
      environment play no part. */
  lemma FirstWordDecides(a: seq<string>, b: seq<string>, home: Option<string>, home': Option<string>)
    requires a != [] && b != [] && a[0] == b[0]
    ensures SameBranch(Dispatch(a, home), Dispatch(b, home'))
  {
  }

  /** `cd` goes to its first argument when there is one, otherwise to `HOME`;
      further arguments are ignored. */
  lemma ChangeDirChoosesTarget(rest: seq<string>, home: Option<string>)
    ensures Dispatch(["cd"] + rest, home) == ChangeDir(if rest == [] then home else Some(rest[0]))
  {
    var args := ["cd"] + rest;
    ArgvRoundTrip(args);
    if rest == [] {
      assert Argv(args)[1] == None;
    } else {
      assert Argv(args)[1] == Some(args[1]);
    }
  }

  /** `printf("exit status %d\n", exitStatus)`. */
  function StatusText(exitStatus: int): string
  {
    "exit status " + FormatInt(exitStatus) + "\n"
  }

  /** The status line is the fixed prefix, the number that can be read back
      exactly, and a newline. */
  lemma StatusTextRoundTrip(exitStatus: int)
    ensures var s := StatusText(exitStatus);
      && |s| > 13
      && s[..12] == "exit status "
      && s[|s| - 1] == '\n'
      && ParseInt(s[12..|s| - 1]) == Some(exitStatus)
  {
    var s := StatusText(exitStatus);
    var n := FormatInt(exitStatus);
    assert |n| > 0;
    assert s[12..|s| - 1] == n;
    FormatIntRoundTrip(exitStatus);
  }

  /** The status line of the initial state. */
  lemma StatusTextZero()
    ensures StatusText(0) == "exit status 0\n"
  {
    assert FormatInt(0) == "0";
  }
}

=== FILE: expansion.dfy ===
/** The `$$` expansion applied to every token at the head of the parsing loop. */
module Expansion {
  import opened Numerals

  /** The two-character marker `$$` starts at index `i` of `s`. */
  predicate MarkerAt(s: string, i: int) {
    0 <= i < |s| - 1 && s[i] == '$' && s[i + 1] == '$'
  }

  /** `strstr(token, "$$") != NULL`, scanning from the left. */
  function HasMarker(s: string): bool
    decreases |s|
  {
    |s| >= 2 && ((s[0] == '$' && s[1] == '$') || HasMarker(s[1..]))
  }

  /** The scan finds a marker exactly when one occurs at some index. */
  lemma {:induction false} HasMarkerIff(s: string)
    ensures HasMarker(s) <==> exists i :: MarkerAt(s, i)
    decreases |s|
  {
    if |s| >= 2 {
      HasMarkerIff(s[1..]);
      if s[0] == '$' && s[1] == '$' {
        assert MarkerAt(s, 0);
      }
      if HasMarker(s[1..]) {
        var i :| MarkerAt(s[1..], i);
        assert MarkerAt(s, i + 1);
      }
      if exists i :: MarkerAt(s, i) {
        var i :| MarkerAt(s, i);
        if i > 0 {
          assert MarkerAt(s[1..], i - 1);
        } else {
          assert s[0] == '$' && s[1] == '$';
        }
      }
    } else {
      assert forall i :: !MarkerAt(s, i);
    }
  }

  /** The loop head's rewrite: when the token contains `$$` anywhere, its last
      two characters are cut off and the decimal pid is appended; otherwise
      the token is left alone. Exactly one replacement is made. */
  function Expand(token: string, pid: nat): string
  {
    if HasMarker(token) then token[..|token| - 2] + Decimal(pid) else token
  }

  /** A trailing marker is replaced by the pid: `file$$` becomes `file<pid>`. */
  lemma ExpandTrailingMarker(p: string, pid: nat)
    ensures Expand(p + "$$", pid) == p + Decimal(pid)
  {
    var t := p + "$$";
    assert MarkerAt(t, |p|);
    HasMarkerIff(t);
    assert t[..|t| - 2] == p;
  }

  /** Wherever the marker sits, it is the last two characters that go:
      `a$$b` becomes `a$<pid>`. */
  lemma ExpandCutsLastTwo(t: string, i: int, pid: nat)
    requires MarkerAt(t, i)
    ensures Expand(t, pid) == t[..|t| - 2] + Decimal(pid)
  {
    HasMarkerIff(t);
  }

  /** A token without the marker passes through unchanged. */
  lemma ExpandUnmarked(t: string, pid: nat)
    requires forall i :: !MarkerAt(t, i)
    ensures Expand(t, pid) == t
  {
    HasMarkerIff(t);
  }

  /** Only one replacement is made: `$$$$` becomes `$$<pid>`, and `$$` alone
      becomes the pid. */
  lemma ExpandSingleReplacement(pid: nat)
    ensures Expand("$$$$", pid) == "$$" + Decimal(pid)
    ensures Expand("$$", pid) == Decimal(pid)
  {
    ExpandTrailingMarker("$$", pid);
    ExpandTrailingMarker("", pid);
    assert "" + "$$" == "$$";
  }

  /** An expanded token ends with the pid's last digit. */
  lemma ExpandedEndsInDigit(t: string, pid: nat)
    requires HasMarker(t)
    ensures var r := Expand(t, pid); var d := Decimal(pid);
      |r| > 0 && IsDigit(r[|r| - 1]) && r[|r| - 1] == d[|d| - 1]
  {
    var d := Decimal(pid);
    var r := t[..|t| - 2] + d;
    assert r[|r| - 1] == d[|d| - 1];
  }
}

=== FILE: lexer.dfy ===
/** The tokenizer: repeated `strtok(str, " \n")` over the line read by the prompt. */
module Lexer {

  /** Only space and newline separate tokens; a tab is an ordinary character. */
  predicate IsDelim(c: char) {
    c == ' ' || c == '\n'
  }

  predicate AllDelims(s: string) {
    forall i :: 0 <= i < |s| ==> IsDelim(s[i])
  }

  predicate NoDelims(s: string) {
    forall i :: 0 <= i < |s| ==> !IsDelim(s[i])
  }

  /** What `strtok` can hand back: a non-empty run of non-delimiters. */
  predicate IsToken(w: string) {
    |w| > 0 && NoDelims(w)
  }

  /** The leading delimiters `strtok` steps over before a token starts. */
  function SkipDelims(s: string): (r: string)
    ensures |r| <= |s|
    decreases |s|
  {
    if s != [] && IsDelim(s[0]) then SkipDelims(s[1..]) else s
  }

  /** Skipping stops at a non-delimiter, or at the end. */
  lemma {:induction false} SkipDelimsStops(s: string)
    ensures SkipDelims(s) == [] || !IsDelim(SkipDelims(s)[0])
    decreases |s|
  {
    if s != [] && IsDelim(s[0]) {
      SkipDelimsStops(s[1..]);
    }
  }

  /** What is skipped is a prefix of delimiters, and what remains is the rest. */
  lemma {:induction false} SkipDelimsSplits(s: string)
    ensures var r := SkipDelims(s); r == s[|s| - |r|..] && AllDelims(s[..|s| - |r|])
    decreases |s|
  {
    if s != [] && IsDelim(s[0]) {
      SkipDelimsSplits(s[1..]);
    }
  }

  /** The length of the token at the start of `s`: up to the first delimiter. */
  function WordLen(s: string): (n: nat)
    ensures n <= |s|
    ensures n < |s| ==> IsDelim(s[n])
    decreases |s|
  {
    if s == [] || IsDelim(s[0]) then 0 else 1 + WordLen(s[1..])
  }

  /** The token is free of delimiters. */
  lemma {:induction false} WordLenNoDelims(s: string)
    ensures NoDelims(s[..WordLen(s)])
    decreases |s|
  {
    if s != [] && !IsDelim(s[0]) {
      WordLenNoDelims(s[1..]);
      assert s[..WordLen(s)] == [s[0]] + s[1..][..WordLen(s[1..])];
    }
  }

  /** What one `strtok` call finds: nothing but delimiters, or a token and the
      text after the delimiter that ends it (empty when the token ends the
      line). The call overwrites that delimiter and resumes after it. */
  datatype Cut = Done | Cut(word: string, rest: string)

  function NextToken(s: string): (c: Cut)
    ensures c.Cut? ==> |c.rest| < |s|
  {
    var t := SkipDelims(s);
    if t == [] then Done
    else
      var n := WordLen(t);
      Cut(t[..n], if n < |t| then t[n + 1..] else [])
  }

  /** The tokens successive `strtok` calls return, until one returns NULL. */
  function Tokens(s: string): seq<string>
    decreases |s|
  {
    match NextToken(s)
    case Done => []
    case Cut(w, r) => [w] + Tokens(r)
  }

  /** One `strtok` step, in terms of the skipped text and the token length. */
  lemma NextTokenOf(s: string, t: string, n: nat)
    requires t == SkipDelims(s) && t != [] && n == WordLen(t)
    ensures NextToken(s) == Cut(t[..n], if n < |t| then t[n + 1..] else [])
  {
  }

  lemma TokensStep(s: string)
    requires NextToken(s).Cut?
    ensures Tokens(s) == [NextToken(s).word] + Tokens(NextToken(s).rest)
  {
  }

  lemma NoTokens(s: string)
    requires SkipDelims(s) == []
    ensures Tokens(s) == []
  {
  }

  /** Every token `strtok` returns is non-empty and free of delimiters. */
  lemma {:induction false} TokensAreTokens(s: string)
    ensures forall k :: 0 <= k < |Tokens(s)| ==> IsToken(Tokens(s)[k])
    decreases |s|
  {
    var t := SkipDelims(s);
    if t == [] {
      NoTokens(s);
    } else {
      var n := WordLen(t);
      SkipDelimsStops(s);
      WordLenNoDelims(t);
      assert n > 0;
      NextTokenOf(s, t, n);
      var r := NextToken(s).rest;
      TokensAreTokens(r);
      TokensStep(s);
      assert IsToken(t[..n]);
    }
  }

  /** Tokens written back out, separated by single spaces. */
  function Join(ws: seq<string>): string
    decreases |ws|
  {
    if ws == [] then []
    else if |ws| == 1 then ws[0]
    else ws[0] + " " + Join(ws[1..])
  }

  function Concat(ws: seq<string>): string
    decreases |ws|
  {
    if ws == [] then [] else ws[0] + Concat(ws[1..])
  }

  /** The characters of `s` that are not delimiters, in order. */
  function NonDelims(s: string): string
    decreases |s|
  {
    if s == [] then [] else (if IsDelim(s[0]) then [] else [s[0]]) + NonDelims(s[1..])
  }

  lemma {:induction false} NonDelimsAppend(a: string, b: string)
    ensures NonDelims(a + b) == NonDelims(a) + NonDelims(b)
    decreases |a|
  {
    if a != [] {
      assert (a + b)[1..] == a[1..] + b;
      NonDelimsAppend(a[1..], b);
    } else {
      assert a + b == b;
    }
  }

  lemma {:induction false} NonDelimsOfDelims(d: string)
    requires AllDelims(d)
    ensures NonDelims(d) == []
    decreases |d|
  {
    if d != [] {
      NonDelimsOfDelims(d[1..]);
    }
  }

  /** A line yields no token exactly when it holds nothing but delimiters. */
  lemma TokensEmptyIff(s: string)
    ensures Tokens(s) == [] <==> AllDelims(s)
  {
    var t := SkipDelims(s);
    SkipDelimsSplits(s);
    SkipDelimsStops(s);
    if t == [] {
      NoTokens(s);
      assert s[..|s|] == s;
    } else {
      assert s[|s| - |t|] == t[0];
      NextTokenOf(s, t, WordLen(t));
      TokensStep(s);
    }
  }

  /** Skipping leading delimiters removes no non-delimiter. */
  lemma NonDelimsSkip(s: string)
    ensures NonDelims(SkipDelims(s)) == NonDelims(s)
  {
    var t := SkipDelims(s);
    SkipDelimsSplits(s);
    var d := s[..|s| - |t|];
    assert s == d + t;
    NonDelimsAppend(d, t);
    NonDelimsOfDelims(d);
  }

  /** The non-delimiters of a string: its first token, then those after the
      delimiter that ends it. */
  lemma {:induction false} NonDelimsWord(t: string, n: nat)
    requires n == WordLen(t)
    ensures NonDelims(t) == t[..n] + (if n < |t| then NonDelims(t[n + 1..]) else [])
    decreases |t|
  {
    if t != [] && !IsDelim(t[0]) {
      NonDelimsWord(t[1..], n - 1);
      assert t[..n] == [t[0]] + t[1..][..n - 1];
      if n < |t| {
        assert t[1..][n..] == t[n + 1..];
      }
    }
  }

  /** Tokenizing loses no character but the delimiters: the tokens, glued
      together, are the line with its spaces and newlines removed. */
  lemma {:induction false} TokensContents(s: string)
    ensures Concat(Tokens(s)) == NonDelims(s)
    decreases |s|
  {
    var t := SkipDelims(s);
    NonDelimsSkip(s);
    if t == [] {
      NoTokens(s);
    } else {
      var n := WordLen(t);
      NonDelimsWord(t, n);
      NextTokenOf(s, t, n);
      var r := NextToken(s).rest;
      TokensStep(s);
      TokensContents(r);
      assert Concat([t[..n]] + Tokens(r)) == t[..n] + Concat(Tokens(r));
    }
  }

  lemma {:induction false} WordLenAppend(t: string, d: string)
    requires d == [] || IsDelim(d[0])
    ensures WordLen(t + d) == WordLen(t)
    decreases |t|
  {
    if t != [] && !IsDelim(t[0]) {
      assert (t + d)[1..] == t[1..] + d;
      WordLenAppend(t[1..], d);
    } else if t == [] {
      assert t + d == d;
    }
  }

  lemma {:induction false} SkipAllDelims(d: string)
    requires AllDelims(d)
    ensures SkipDelims(d) == []
    decreases |d|
  {
    if d != [] {
      SkipAllDelims(d[1..]);
    }
  }

  lemma {:induction false} SkipDelimsAppend(s: string, d: string)
    requires AllDelims(d)
    ensures SkipDelims(s + d) == if SkipDelims(s) == [] then [] else SkipDelims(s) + d
    decreases |s|
  {
    if s == [] {
      assert s + d == d;
      SkipAllDelims(d);
    } else if IsDelim(s[0]) {
      assert (s + d)[1..] == s[1..] + d;
      SkipDelimsAppend(s[1..], d);
    }
  }

  lemma SuffixOfAppend(a: string, b: string, i: nat)
    requires i <= |a|
    ensures (a + b)[i..] == a[i..] + b
  {
  }

  lemma PrefixOfAppend(a: string, b: string, i: nat)
    requires i <= |a|
    ensures (a + b)[..i] == a[..i]
  {
  }

  lemma DropPastPrefix(a: string, b: string)
    requires b != []
    ensures (a + b)[|a| + 1..] == b[1..]
  {
  }

  /** Delimiters at the end of a line, such as the newline `fgets` keeps,
      change nothing. */
  lemma {:induction false} TrailingDelimsIgnored(s: string, d: string)
    requires AllDelims(d)
    ensures Tokens(s + d) == Tokens(s)
    decreases |s|
  {
    SkipDelimsAppend(s, d);
    var t := SkipDelims(s);
    if t == [] {
      NoTokens(s);
      NoTokens(s + d);
    } else {
      var n := WordLen(t);
      if n < |t| {
        TrailingDelimsIgnored(t[n + 1..], d);
      }
      TrailingDelimsStep(s, d, t, n);
    }
  }

  /** The inductive step of `TrailingDelimsIgnored`, given its hypothesis for
      the text after the first token. */
  lemma TrailingDelimsStep(s: string, d: string, t: string, n: nat)
    requires AllDelims(d)
    requires t == SkipDelims(s) && t != [] && n == WordLen(t)
    requires SkipDelims(s + d) == t + d
    requires n < |t| ==> Tokens(t[n + 1..] + d) == Tokens(t[n + 1..])
    ensures Tokens(s + d) == Tokens(s)
  {
    var t' := t + d;
    WordLenAppend(t, d);
    PrefixOfAppend(t, d, n);
    NextTokenOf(s, t, n);
    NextTokenOf(s + d, t', n);
    TokensStep(s);
    TokensStep(s + d);
    if n < |t| {
      SuffixOfAppend(t, d, n + 1);
    } else if d != [] {
      DropPastPrefix(t, d);
      TokensEmptyIff(d[1..]);
      TokensEmptyIff([]);
    } else {
      assert t' == t;
    }
  }

  lemma {:induction false} WordLenOfToken(w: string)
    requires NoDelims(w)
    ensures WordLen(w) == |w|
    decreases |w|
  {
    if w != [] {
      WordLenOfToken(w[1..]);
    }
  }

  /** Any sequence of tokens survives being written out with single spaces
      and tokenized again. */
  lemma {:induction false} TokensOfJoin(ws: seq<string>)
    requires forall k :: 0 <= k < |ws| ==> IsToken(ws[k])
    ensures Tokens(Join(ws)) == ws
    decreases |ws|
  {
    if |ws| == 1 {
      assert [] + ws[0] == Join(ws);
      LastWord([], ws[0]);
    } else if |ws| > 1 {
      var more := Join(ws[1..]);
      assert [] + ws[0] + " " + more == Join(ws);
      SeparatedWord([], ws[0], " ", more);
      TokensOfJoin(ws[1..]);
    }
  }

  /** Delimiters in front of the text are skipped along with those it starts with. */
  lemma {:induction false} SkipDelimsLead(d: string, x: string)
    requires AllDelims(d)
    ensures SkipDelims(d + x) == SkipDelims(x)
    decreases |d|
  {
    if d == [] {
      assert d + x == x;
    } else {
      assert (d + x)[1..] == d[1..] + x;
      SkipDelimsLead(d[1..], x);
    }
  }

  /** Leading delimiters, any number of them, change nothing. */
  lemma LeadingDelimsIgnored(d: string, x: string)
    requires AllDelims(d)
    ensures Tokens(d + x) == Tokens(x)
  {
    SkipDelimsLead(d, x);
    assert NextToken(d + x) == NextToken(x);
  }

  /** A token followed by the end of the line or by a delimiter is what the
      next `strtok` call returns. */
  lemma WordThen(w: string, tail: string)
    requires IsToken(w) && (tail == [] || IsDelim(tail[0]))
    ensures NextToken(w + tail) == Cut(w, if tail == [] then [] else tail[1..])
  {
    var t := w + tail;
    assert t[0] == w[0];
    assert SkipDelims(t) == t;
    WordLenAppend(w, tail);
    WordLenOfToken(w);
    PrefixOfAppend(w, tail, |w|);
    if tail != [] {
      DropPastPrefix(w, tail);
    }
    NextTokenOf(t, t, |w|);
  }

  /** A token at the end of the line, after any run of delimiters, is the last
      token. */
  lemma LastWord(d: string, w: string)
    requires AllDelims(d) && IsToken(w)
    ensures Tokens(d + w) == [w]
  {
    SkipDelimsLead(d, w);
    assert NextToken(d + w) == NextToken(w);
    assert w + [] == w;
    WordThen(w, []);
    TokensStep(d + w);
    TokensEmptyIff([]);
  }

  /** A token followed by a non-empty run of delimiters is split off from
      whatever follows, however long the run. */
  lemma SeparatedWord(d: string, w: string, e: string, rest: string)
    requires AllDelims(d) && IsToken(w) && AllDelims(e) && e != []
    ensures Tokens(d + w + e + rest) == [w] + Tokens(rest)
  {
    var t := w + (e + rest);
    assert d + w + e + rest == d + t;
    NextTokenLead(d, t);
    WordThen(w, e + rest);
    TokensStep(d + t);
    SuffixOfAppend(e, rest, 1);
    LeadingDelimsIgnored(e[1..], rest);
  }

  lemma NextTokenLead(d: string, x: string)
    requires AllDelims(d)
    ensures NextToken(d + x) == NextToken(x)
  {
    SkipDelimsLead(d, x);
  }

  /** Tokens laid out with a run of delimiters after each one. */
  function Weave(ws: seq<string>, gaps: seq<string>): string
    requires |gaps| == |ws|
    decreases |ws|
  {
    if ws == [] then [] else ws[0] + gaps[0] + Weave(ws[1..], gaps[1..])
  }

  /** Any layout of tokens survives tokenizing: leading delimiters, runs of any
      length and mix of spaces and newlines between tokens, and trailing
      delimiters. */
  lemma {:induction false} TokensOfWeave(lead: string, ws: seq<string>, gaps: seq<string>)
    requires |gaps| == |ws| && AllDelims(lead)
    requires forall k :: 0 <= k < |ws| ==> IsToken(ws[k]) && AllDelims(gaps[k])
    requires forall k :: 0 <= k < |ws| - 1 ==> gaps[k] != []
    ensures Tokens(lead + Weave(ws, gaps)) == ws
    decreases |ws|
  {
    if ws == [] {
      assert lead + Weave(ws, gaps) == lead;
      TokensEmptyIff(lead);
    } else {
      var w, g, more := ws[0], gaps[0], Weave(ws[1..], gaps[1..]);
      assert lead + Weave(ws, gaps) == lead + w + g + more;
      if |ws| == 1 {
        assert more == [];
        assert lead + w + g + more == (lead + w) + g;
        TrailingDelimsIgnored(lead + w, g);
        LastWord(lead, w);
      } else {
        SeparatedWord(lead, w, g, more);
        TokensOfWeave([], ws[1..], gaps[1..]);
        assert [] + more == more;
      }
    }
  }
}

=== FILE: mode.dfy ===
/** The foreground-only mode: the flag `handle_SIGTSTP` flips, the messages it
    writes, the run-asynchronously decision of `execCommand`, and the line the
    parent prints for a background child. */
module Mode {
  import opened Numerals

  const EnterMessage := "Entering foreground-only mode (& is now ignored)\n"
  const ExitMessage := "Exiting foreground-only mode\n"

  datatype Toggled = Toggled(foregroundOnly: bool, message: string)

  /** `handle_SIGTSTP`: flips the flag and announces the mode it has entered. */
  function Toggle(foregroundOnly: bool): (t: Toggled)
    ensures t.foregroundOnly != foregroundOnly
    ensures t.message == (if t.foregroundOnly then EnterMessage else ExitMessage)
  {
    if foregroundOnly then Toggled(false, ExitMessage) else Toggled(true, EnterMessage)
  }

  /** Two toggles restore the flag, and between them both messages are written,
      one each. */
  lemma ToggleTwice(foregroundOnly: bool)
    ensures var first := Toggle(foregroundOnly);
      var second := Toggle(first.foregroundOnly);
      && second.foregroundOnly == foregroundOnly
      && {first.message, second.message} == {EnterMessage, ExitMessage}
  {
  }

  /** `background && !foreground`: the parent does not wait for the child. */
  function RunsAsync(background: bool, foregroundOnly: bool): bool
  {
    background && !foregroundOnly
  }

  /** `printf("background pid is %d\n", spawnPid)`. */
  function BackgroundNotice(childPid: nat): string
  {
    "background pid is " + Decimal(childPid) + "\n"
  }

  /** The notice names its child unambiguously: different children, different lines. */
  lemma BackgroundNoticeInjective(a: nat, b: nat)
    requires BackgroundNotice(a) == BackgroundNotice(b)
    ensures a == b
  {
    var p := "background pid is ";
    assert BackgroundNotice(a)[|p|..|BackgroundNotice(a)| - 1] == Decimal(a);
    assert BackgroundNotice(b)[|p|..|BackgroundNotice(b)| - 1] == Decimal(b);
    DecimalInjective(a, b);
  }
}

=== FILE: numerals.dfy ===
/** Decimal text of integers, as `printf`'s and `sprintf`'s `%d` conversion writes it. */
module Numerals {
  import opened Optional

  predicate IsDigit(c: char) {
    '0' <= c <= '9'
  }

  predicate AllDigits(s: string) {
    forall i :: 0 <= i < |s| ==> IsDigit(s[i])
  }

  function DigitChar(d: nat): (c: char)
    requires d < 10
    ensures IsDigit(c)
  {
    (48 + d) as char
  }

  function DigitValue(c: char): nat
    requires IsDigit(c)
  {
    c as int - 48
  }

  /** `%d` of a non-negative value: at least one digit, no sign, no leading zero. */
  function Decimal(n: nat): (s: string)
    ensures |s| > 0 && AllDigits(s)
    ensures s[0] == '0' ==> n == 0
    decreases n
  {
    if n < 10 then [DigitChar(n)] else Decimal(n / 10) + [DigitChar(n % 10)]
  }

  /** The number a string of decimal digits denotes. */
  function Value(s: string): nat
    requires AllDigits(s)
    decreases |s|
  {
    if s == [] then 0 else 10 * Value(s[..|s| - 1]) + DigitValue(s[|s| - 1])
  }

  /** Reading the digits back gives the number that was written. */
  lemma {:induction false} ValueOfDecimal(n: nat)
    ensures Value(Decimal(n)) == n
    decreases n
  {
    if n >= 10 {
      ValueOfDecimal(n / 10);
      var s := Decimal(n);
      assert s[..|s| - 1] == Decimal(n / 10);
    }
  }

  /** Distinct numbers are written differently. */
  lemma DecimalInjective(a: nat, b: nat)
    requires Decimal(a) == Decimal(b)
    ensures a == b
  {
    ValueOfDecimal(a);
    ValueOfDecimal(b);
  }

  /** `%d` of any `int`: a minus sign before the magnitude when negative. */
  function FormatInt(x: int): string
  {
    if x < 0 then "-" + Decimal(-x) else Decimal(x)
  }

  /** Reads an optionally signed decimal number; `None` for anything else. */
  function ParseInt(s: string): Option<int>
  {
    if |s| > 1 && s[0] == '-' && AllDigits(s[1..]) then Some(0 - Value(s[1..]) as int)
    else if |s| > 0 && AllDigits(s) then Some(Value(s))
    else None
  }

  lemma FormatIntRoundTrip(x: int)
    ensures ParseInt(FormatInt(x)) == Some(x)
  {
    if x < 0 {
      var s := FormatInt(x);
      assert s[1..] == Decimal(-x);
      ValueOfDecimal(-x);
    } else {
      ValueOfDecimal(x);
    }
  }
}

=== FILE: optional.dfy ===
/** A value that may be absent, standing in for the C code's possibly-NULL `char *`. */
module Optional {

  datatype Option<T> = None | Some(value: T)
}

=== FILE: parser.dfy ===
/** The command parser of `processInput`: classification of loop-head tokens,
    the grouping of a redirection operator with the token it consumes, and the
    command descriptor the loop builds. */
module Parser {
  import opened Optional
  import opened Numerals
  import opened Lexer
  import opened Expansion

  /** The capacity of the `input` array that collects ordinary words. */
  const MaxWords := 512

  /** `charCheck`: 1 for `>`, 2 for `<`, 3 for `&`, 0 for anything else. */
  function CharCheck(s: string): (r: int)
    ensures 0 <= r <= 3
    ensures r == 1 <==> s == ">"
    ensures r == 2 <==> s == "<"
    ensures r == 3 <==> s == "&"
  {
    if s == ">" then 1
    else if s == "<" then 2
    else if s == "&" then 3
    else 0
  }

  /** Operators are whole one-character tokens; doubled ones are ordinary words. */
  lemma OperatorsAreExact(s: string)
    ensures CharCheck(s) != 0 ==> |s| == 1
    ensures CharCheck(">>") == 0 && CharCheck("<<") == 0 && CharCheck("&&") == 0
  {
  }

  /** Expansion never changes how a token is classified: an expanded token ends
      in a digit, and no operator contains `$$`. Hence classifying the raw token
      or the expanded one is the same. */
  lemma ExpandKeepsClass(t: string, pid: nat)
    ensures CharCheck(Expand(t, pid)) == CharCheck(t)
  {
    if HasMarker(t) {
      ExpandedEndsInDigit(t, pid);
      var r := Expand(t, pid);
      assert r != ">" && r != "<" && r != "&" by {
        if |r| == 1 {
          assert IsDigit(r[0]);
        }
      }
      assert |t| >= 2;
    }
  }

  /** What one pass of the parsing loop consumes: an ordinary word (kept raw,
      before expansion), a redirection operator with the token it took as its
      path (absent when the line ended first), or the background marker. */
  datatype Clause =
    | Word(text: string)
    | OutputTo(target: Option<string>)
    | InputFrom(target: Option<string>)
    | Ampersand

  /** The tokens a clause was made from. */
  function Render(c: Clause): seq<string>
  {
    match c
    case Word(w) => [w]
    case OutputTo(t) => [">"] + (if t.Some? then [t.value] else [])
    case InputFrom(t) => ["<"] + (if t.Some? then [t.value] else [])
    case Ampersand => ["&"]
  }

  function Flatten(cs: seq<Clause>): seq<string>
    decreases |cs|
  {
    if cs == [] then [] else Render(cs[0]) + Flatten(cs[1..])
  }

  /** A redirection whose path is missing. */
  predicate Dangling(c: Clause) {
    (c.OutputTo? || c.InputFrom?) && c.target.None?
  }

  /** Clause sequences the loop can produce: a word is never an operator, and a
      redirection can miss its path only at the very end of the line. */
  predicate WellFormed(cs: seq<Clause>) {
    forall i :: 0 <= i < |cs| ==>
      (cs[i].Word? ==> CharCheck(cs[i].text) == 0) && (Dangling(cs[i]) ==> i == |cs| - 1)
  }

  /** The grouping the loop performs. A `>` or `<` at the head of an iteration
      takes the very next token, whatever it is, as its path; that token is
      neither classified nor expanded. */
  function Segment(toks: seq<string>): (cs: seq<Clause>)
    ensures Flatten(cs) == toks
    ensures WellFormed(cs)
    decreases |toks|
  {
    if toks == [] then []
    else
      var flag := CharCheck(toks[0]);
      if flag == 1 || flag == 2 then
        var target := if |toks| > 1 then Some(toks[1]) else None;
        var c := if flag == 1 then OutputTo(target) else InputFrom(target);
        if |toks| > 1 then
          assert toks == Render(c) + toks[2..];
          [c] + Segment(toks[2..])
        else
          [c]
      else if flag == 3 then
        assert toks == Render(Ampersand) + toks[1..];
        [Ampersand] + Segment(toks[1..])
      else
        assert toks == Render(Word(toks[0])) + toks[1..];
        [Word(toks[0])] + Segment(toks[1..])
  }

  /** Segmentation is the only one possible: a well-formed clause sequence,
      written out as tokens, is grouped back into itself. */
  lemma {:induction false} SegmentOfFlatten(cs: seq<Clause>)
    requires WellFormed(cs)
    ensures Segment(Flatten(cs)) == cs
    decreases |cs|
  {
    if cs != [] {
      var c := cs[0];
      var rest := cs[1..];
      assert WellFormed(rest) by {
        forall i | 0 <= i < |rest|
          ensures (rest[i].Word? ==> CharCheck(rest[i].text) == 0)
          ensures (Dangling(rest[i]) ==> i == |rest| - 1)
        {
          assert rest[i] == cs[i + 1];
        }
      }
      SegmentOfFlatten(rest);
      var toks := Flatten(cs);
      assert toks == Render(c) + Flatten(rest);
      if Dangling(c) {
        assert |cs| == 1;
        assert rest == [];
      }
      match c
      case Word(w) =>
        assert toks[1..] == Flatten(rest);
      case OutputTo(t) =>
        if t.Some? {
          assert toks[2..] == Flatten(rest);
        }
      case InputFrom(t) =>
        if t.Some? {
          assert toks[2..] == Flatten(rest);
        }
      case Ampersand =>
        assert toks[1..] == Flatten(rest);
    }
  }

  /** The command descriptor: the argument list, the optional input and output
      paths, and the background flag. */
  datatype Cmd = Cmd(args: seq<string>, input: Option<string>, output: Option<string>, background: bool)

  /** The descriptor before the first token: no argument, no path, foreground. */
  const NoCmd := Cmd([], None, None, false)

  /** One pass of the loop body once the clause is known. A word is expanded
      and appended; a redirection overwrites its path, even with an absent
      one; `&` sets the flag. */
  function Absorb(cmd: Cmd, c: Clause, pid: nat): Cmd
  {
    match c
    case Word(w) => cmd.(args := cmd.args + [Expand(w, pid)])
    case OutputTo(t) => cmd.(output := t)
    case InputFrom(t) => cmd.(input := t)
    case Ampersand => cmd.(background := true)
  }

  /** The descriptor the loop holds after absorbing `cs` from left to right. */
  function Describe(cs: seq<Clause>, pid: nat): Cmd
    decreases |cs|
  {
    if cs == [] then NoCmd
    else Absorb(Describe(cs[..|cs| - 1], pid), cs[|cs| - 1], pid)
  }

  predicate SetsOutput(cs: seq<Clause>) {
    exists i :: 0 <= i < |cs| && cs[i].OutputTo?
  }

  predicate SetsInput(cs: seq<Clause>) {
    exists i :: 0 <= i < |cs| && cs[i].InputFrom?
  }

  predicate HasAmpersand(cs: seq<Clause>) {
    exists i :: 0 <= i < |cs| && cs[i].Ampersand?
  }

  lemma SnocFacts(b: seq<Clause>, x: Clause)
    ensures SetsOutput(b + [x]) <==> SetsOutput(b) || x.OutputTo?
    ensures SetsInput(b + [x]) <==> SetsInput(b) || x.InputFrom?
    ensures HasAmpersand(b + [x]) <==> HasAmpersand(b) || x.Ampersand?
  {
    var bx := b + [x];
    assert bx[|b|] == x;
    assert forall i :: 0 <= i < |b| ==> bx[i] == b[i];
  }

  lemma DescribeSnoc(a: seq<Clause>, x: Clause, pid: nat)
    ensures Describe(a + [x], pid) == Absorb(Describe(a, pid), x, pid)
  {
    assert (a + [x])[..|a|] == a;
  }

  /** How the descriptor of a two-piece line relates to those of its pieces,
      given whether the second piece redirects output and input. */
  predicate Joins(whole: Cmd, left: Cmd, right: Cmd, setsOut: bool, setsIn: bool) {
    && whole.args == left.args + right.args
    && whole.background == (left.background || right.background)
    && whole.output == (if setsOut then right.output else left.output)
    && whole.input == (if setsIn then right.input else left.input)
  }

  lemma AbsorbJoins(whole: Cmd, left: Cmd, right: Cmd, setsOut: bool, setsIn: bool, x: Clause, pid: nat)
    requires Joins(whole, left, right, setsOut, setsIn)
    ensures Joins(Absorb(whole, x, pid), left, Absorb(right, x, pid), setsOut || x.OutputTo?, setsIn || x.InputFrom?)
  {
    match x
    case Word(w) =>
      assert Absorb(whole, x, pid).args == left.args + (right.args + [Expand(w, pid)]);
    case _ =>
  }

  /** Parsing a line in two pieces: the arguments concatenate, the background
      flag is set if either piece sets it, and a path comes from the second
      piece if that piece redirects at all, otherwise from the first. */
  lemma {:induction false} DescribeAppend(a: seq<Clause>, b: seq<Clause>, pid: nat)
    ensures Describe(a + b, pid).args == Describe(a, pid).args + Describe(b, pid).args
    ensures Describe(a + b, pid).background == (Describe(a, pid).background || Describe(b, pid).background)
    ensures Describe(a + b, pid).output == if SetsOutput(b) then Describe(b, pid).output else Describe(a, pid).output
    ensures Describe(a + b, pid).input == if SetsInput(b) then Describe(b, pid).input else Describe(a, pid).input
  {
    DescribeJoins(a, b, pid);
  }

  lemma {:induction false} DescribeJoins(a: seq<Clause>, b: seq<Clause>, pid: nat)
    ensures Joins(Describe(a + b, pid), Describe(a, pid), Describe(b, pid), SetsOutput(b), SetsInput(b))
    decreases |b|
  {
    if b == [] {
      assert a + b == a;
    } else {
      var b' := b[..|b| - 1];
      var x := b[|b| - 1];
      assert b == b' + [x];
      assert a + b == (a + b') + [x];
      DescribeJoins(a, b', pid);
      DescribeSnoc(a + b', x, pid);
      DescribeSnoc(b', x, pid);
      SnocFacts(b', x);
      AbsorbJoins(Describe(a + b', pid), Describe(a, pid), Describe(b', pid), SetsOutput(b'), SetsInput(b'), x, pid);
    }
  }

  /** `&` anywhere on the line requests the background, and nothing else does. */
  lemma {:induction false} BackgroundIffAmpersand(cs: seq<Clause>, pid: nat)
    ensures Describe(cs, pid).background <==> HasAmpersand(cs)
    decreases |cs|
  {
    if cs != [] {
      var p := cs[..|cs| - 1];
      assert cs == p + [cs[|cs| - 1]];
      BackgroundIffAmpersand(p, pid);
      SnocFacts(p, cs[|cs| - 1]);
    }
  }

  /** A line without `>` (or `<`) has no output (or input) path. */
  lemma {:induction false} UnredirectedPathsAbsent(cs: seq<Clause>, pid: nat)
    ensures !SetsOutput(cs) ==> Describe(cs, pid).output == None
    ensures !SetsInput(cs) ==> Describe(cs, pid).input == None
    decreases |cs|
  {
    if cs != [] {
      var p := cs[..|cs| - 1];
      assert cs == p + [cs[|cs| - 1]];
      UnredirectedPathsAbsent(p, pid);
      SnocFacts(p, cs[|cs| - 1]);
    }
  }

  /** The last `>` decides the output path, and its path is the raw token it
      took, or absent if the line ended right after it. */
  lemma OutputLastWins(a: seq<Clause>, t: Option<string>, b: seq<Clause>, pid: nat)
    requires !SetsOutput(b)
    ensures Describe(a + [OutputTo(t)] + b, pid).output == t
  {
    DescribeAppend(a + [OutputTo(t)], b, pid);
    DescribeSnoc(a, OutputTo(t), pid);
  }

  /** The last `<` decides the input path in the same way. */
  lemma InputLastWins(a: seq<Clause>, t: Option<string>, b: seq<Clause>, pid: nat)
    requires !SetsInput(b)
    ensures Describe(a + [InputFrom(t)] + b, pid).input == t
  {
    DescribeAppend(a + [InputFrom(t)], b, pid);
    DescribeSnoc(a, InputFrom(t), pid);
  }

  /** The words of a clause sequence, raw, in order. */
  function WordsOf(cs: seq<Clause>): seq<string>
    decreases |cs|
  {
    if cs == [] then [] else (if cs[0].Word? then [cs[0].text] else []) + WordsOf(cs[1..])
  }

  function ExpandAll(ws: seq<string>, pid: nat): seq<string>
    decreases |ws|
  {
    if ws == [] then [] else [Expand(ws[0], pid)] + ExpandAll(ws[1..], pid)
  }

  /** The argument list is exactly the ordinary words, each expanded, in their
      original order: redirection paths and `&` never enter it. */
  lemma {:induction false} ArgsAreWords(cs: seq<Clause>, pid: nat)
    ensures Describe(cs, pid).args == ExpandAll(WordsOf(cs), pid)
    decreases |cs|
  {
    if cs != [] {
      assert cs == [cs[0]] + cs[1..];
      DescribeAppend([cs[0]], cs[1..], pid);
      DescribeSnoc([], cs[0], pid);
      assert [] + [cs[0]] == [cs[0]];
      ArgsAreWords(cs[1..], pid);
      var ws := WordsOf(cs[1..]);
      if cs[0].Word? {
        var w := cs[0].text;
        assert WordsOf(cs) == [w] + ws;
        assert ([w] + ws)[1..] == ws;
        assert ExpandAll([w] + ws, pid) == [Expand(w, pid)] + ExpandAll(ws, pid);
      } else {
        assert WordsOf(cs) == ws;
      }
    }
  }

  /** A redirection operator takes the next token raw, whatever it is, even
      another operator or a token containing `$$`. */
  lemma RedirectTargetRaw(f: string, pid: nat)
    ensures Describe(Segment([">", f]), pid) == Cmd([], None, Some(f), false)
    ensures Describe(Segment(["<", f]), pid) == Cmd([], Some(f), None, false)
  {
    assert [">", f][2..] == [];
    assert ["<", f][2..] == [];
    DescribeSnoc([], OutputTo(Some(f)), pid);
    DescribeSnoc([], InputFrom(Some(f)), pid);
  }

  /** A `>` with nothing after it clears an output path set earlier on the line. */
  lemma DanglingRedirectClearsOutput(cs: seq<Clause>, pid: nat)
    requires WellFormed(cs)
    requires cs == [] || !Dangling(cs[|cs| - 1])
    ensures Describe(Segment(Flatten(cs) + [">"]), pid).output == None
  {
    var cs' := cs + [OutputTo(None)];
    assert WellFormed(cs') by {
      forall i | 0 <= i < |cs'|
        ensures (cs'[i].Word? ==> CharCheck(cs'[i].text) == 0)
        ensures (Dangling(cs'[i]) ==> i == |cs'| - 1)
      {
        if i < |cs| {
          assert cs'[i] == cs[i];
        }
      }
    }
    FlattenAppend(cs, [OutputTo(None)]);
    assert Flatten([OutputTo(None)]) == [">"];
    SegmentOfFlatten(cs');
    DescribeSnoc(cs, OutputTo(None), pid);
  }

  lemma {:induction false} FlattenAppend(a: seq<Clause>, b: seq<Clause>)
    ensures Flatten(a + b) == Flatten(a) + Flatten(b)
    decreases |a|
  {
    if a == [] {
      assert a + b == b;
    } else {
      assert (a + b)[1..] == a[1..] + b;
      FlattenAppend(a[1..], b);
    }
  }

  /** The outcome of parsing one line. */
  datatype Parsed =
    | Blank                 // no token: the line is skipped before any dispatch
    | TooManyWords          // more than `MaxWords` ordinary words overrun `input`
    | Command(cmd: Cmd)

  /** The line's descriptor: tokenize, group, absorb. */
  function Parse(line: string, pid: nat): Parsed
  {
    var toks := Tokens(line);
    if toks == [] then Blank
    else
      var cmd := Describe(Segment(toks), pid);
      if |cmd.args| > MaxWords then TooManyWords else Command(cmd)
  }

  /** A line of nothing but spaces and newlines, and only such a line, is blank. */
  lemma ParseBlankIff(line: string, pid: nat)
    ensures Parse(line, pid) == Blank <==> AllDelims(line)
  {
    TokensEmptyIff(line);
  }

  /** The newline `fgets` leaves at the end of the line does not matter. */
  lemma ParseIgnoresNewline(line: string, pid: nat)
    ensures Parse(line + "\n", pid) == Parse(line, pid)
  {
    TrailingDelimsIgnored(line, "\n");
  }

  /** For a parsed line, the arguments are the expanded ordinary words of the
      line in order, and `&` anywhere on it requests the background. */
  lemma ParsedCommand(line: string, pid: nat)
    requires Parse(line, pid).Command?
    ensures var cs := Segment(Tokens(line));
      && Parse(line, pid).cmd.args == ExpandAll(WordsOf(cs), pid)
      && (Parse(line, pid).cmd.background <==> HasAmpersand(cs))
  {
    var cs := Segment(Tokens(line));
    ArgsAreWords(cs, pid);
    BackgroundIffAmpersand(cs, pid);
  }

  /** A single token is tokenized as itself. */
  lemma TokensOfSingle(w: string)
    requires IsToken(w)
    ensures Tokens(w) == [w]
  {
    TokensOfJoin([w]);
  }

  /** The descriptor of a single clause. */
  lemma DescribeSingle(c: Clause, pid: nat)
    ensures Describe([c], pid) == Absorb(NoCmd, c, pid)
  {
    DescribeSnoc([], c, pid);
    assert [] + [c] == [c];
  }

  /** A line holding a single ordinary word without `$$` is that command alone. */
  lemma SingleWordLine(w: string, pid: nat)
    requires IsToken(w) && CharCheck(w) == 0 && !HasMarker(w)
    ensures Parse(w, pid) == Command(Cmd([w], None, None, false))
  {
    TokensOfSingle(w);
    assert Segment([w]) == [Word(w)] by {
      assert [w][1..] == [];
    }
    DescribeSingle(Word(w), pid);
  }

  /** A line holding only `&` is a command with no word at all. */
  lemma LoneAmpersandLine(pid: nat)
    ensures Parse("&", pid) == Command(Cmd([], None, None, true))
  {
    var amp := "&";
    assert IsToken(amp);
    TokensOfSingle(amp);
    assert Segment([amp]) == [Ampersand] by {
      assert [amp][1..] == [];
    }
    DescribeSingle(Ampersand, pid);
  }

  /** The parsing loop of `processInput`, over the tokens `strtok` returns. */
  method ProcessInput(line: string, pid: nat) returns (p: Parsed)
    ensures p == Parse(line, pid)
  {
    var toks := Tokens(line);
    if toks == [] {
      return Blank;
    }
    var cmd := NoCmd;
    var i := 0;
    ghost var done: seq<Clause> := [];
    while i < |toks|
      invariant 0 <= i <= |toks|
      invariant Segment(toks) == done + Segment(toks[i..])
      invariant cmd == Describe(done, pid)
      invariant |cmd.args| <= MaxWords
    {
      var token := Expand(toks[i], pid);
      var flag := CharCheck(token);
      ExpandKeepsClass(toks[i], pid);
      var c: Clause;
      var next: nat;
      if flag == 1 || flag == 2 {
        var target := if i + 1 < |toks| then Some(toks[i + 1]) else None;
        c := if flag == 1 then OutputTo(target) else InputFrom(target);
        next := if i + 1 < |toks| then i + 2 else i + 1;
      } else if flag == 3 {
        c := Ampersand;
        next := i + 1;
      } else {
        c := Word(toks[i]);
        next := i + 1;
      }
      assert c == ClauseAt(toks, i) && next == NextHead(toks, i);
      LoopAdvance(toks, i, done);
      DescribeSnoc(done, c, pid);
      if c.Word? && |cmd.args| == MaxWords {
        // the store would be `input[512]`, one past the array
        DescribeAppend(done + [c], Segment(toks[next..]), pid);
        assert |Describe(done + [c], pid).args| == MaxWords + 1;
        assert |Describe(Segment(toks), pid).args| > MaxWords;
        return TooManyWords;
      }
      cmd := Absorb(cmd, c, pid);
      done := done + [c];
      i := next;
    }
    assert toks[i..] == [];
    assert Segment(toks) == done;
    return Command(cmd);
  }

  /** The clause a loop pass starting at token `i` consumes. */
  function ClauseAt(toks: seq<string>, i: nat): Clause
    requires i < |toks|
  {
    var flag := CharCheck(toks[i]);
    var target := if i + 1 < |toks| then Some(toks[i + 1]) else None;
    if flag == 1 then OutputTo(target)
    else if flag == 2 then InputFrom(target)
    else if flag == 3 then Ampersand
    else Word(toks[i])
  }

  /** Where the next loop pass starts. */
  function NextHead(toks: seq<string>, i: nat): nat
    requires i < |toks|
  {
    var flag := CharCheck(toks[i]);
    if (flag == 1 || flag == 2) && i + 1 < |toks| then i + 2 else i + 1
  }

  /** Segmenting from a loop head peels off one clause. */
  lemma SegmentStep(toks: seq<string>, i: nat)
    requires i < |toks|
    ensures NextHead(toks, i) <= |toks|
    ensures Segment(toks[i..]) == [ClauseAt(toks, i)] + Segment(toks[NextHead(toks, i)..])
  {
    var u := toks[i..];
    assert u[0] == toks[i];
    assert u[1..] == toks[i + 1..];
    if i + 1 < |toks| {
      assert u[1] == toks[i + 1];
      assert u[2..] == toks[i + 2..];
    }
  }

  lemma LoopAdvance(toks: seq<string>, i: nat, done: seq<Clause>)
    requires i < |toks|
    requires Segment(toks) == done + Segment(toks[i..])
    ensures Segment(toks) == (done + [ClauseAt(toks, i)]) + Segment(toks[NextHead(toks, i)..])
  {
    SegmentStep(toks, i);
  }

  /** The vector handed to `execvp`: the arguments followed by a NULL. */
  function Argv(args: seq<string>): seq<Option<string>>
  {
    seq(|args|, i requires 0 <= i < |args| => Some(args[i])) + [None]
  }

  /** What a reader of the vector takes as the argument count: the slots
      before the first NULL. */
  function ArgCount(v: seq<Option<string>>): nat
    decreases |v|
  {
    if v == [] || v[0].None? then 0 else 1 + ArgCount(v[1..])
  }

  /** The vector holds every argument in order and its terminator comes right
      after the last one, so the count read from it is the number of words. */
  lemma {:induction false} ArgvRoundTrip(args: seq<string>)
    ensures ArgCount(Argv(args)) == |args|
    ensures forall i :: 0 <= i < |args| ==> Argv(args)[i] == Some(args[i])
    decreases |args|
  {
    if args != [] {
      assert Argv(args)[1..] == Argv(args[1..]);
      ArgvRoundTrip(args[1..]);
    }
  }
}

=== FILE: shell.dfy ===
/** The interpreter as a state machine: one step per input line or per stop
    signal, with the process-wide state threaded explicitly. Process creation,
    waiting, reaping and the file system are left to the caller; a step only
    says which of them it asks for. */
module Shell {
  import opened Optional
  import opened Lexer
  import opened Parser
  import opened Builtins
  import opened Mode

  /** The globals `exitStatus` and `foreground`. */
  datatype State = State(exitStatus: int, foregroundOnly: bool)

  const Initial := State(0, false)

  /** What the interpreter reads from the operating system: its own pid and
      `getenv("HOME")`. */
  datatype Env = Env(pid: nat, home: Option<string>)

  datatype Event =
    | Line(text: string)   // one line returned by the prompt
    | StopSignal           // SIGTSTP delivered to the interpreter

  /** The behaviour the C code leaves undefined. */
  datatype Fault =
    | WordOverflow         // an ordinary word stored past `input[511]`
    | MissingCommand       // `strcmp` on a NULL `key[0]`

  datatype Effect =
    | Nothing
    | Print(text: string)
    | ChangeDirectory(target: Option<string>)
    | Terminate
    | Spawn(cmd: Cmd, async: bool)
    | Undefined(fault: Fault)

  datatype Outcome = Outcome(state: State, effect: Effect)

  /** What `processInput` asks for on one line. */
  function LineEffect(st: State, text: string, env: Env): Effect
  {
    match Parse(text, env.pid)
    case Blank => Nothing
    case TooManyWords => Undefined(WordOverflow)
    case Command(cmd) =>
      match Dispatch(cmd.args, env.home)
      case NoCommand => Undefined(MissingCommand)
      case Exit => Terminate
      case ChangeDir(t) => ChangeDirectory(t)
      case Status => Print(StatusText(st.exitStatus))
      case Comment => Nothing
      case External => Spawn(cmd, RunsAsync(cmd.background, st.foregroundOnly))
  }

  /** One event. A line never changes the interpreter's own state: `exitStatus`
      is assigned only in the forked child, and the flag only by the signal
      handler. A stop signal flips the flag and touches nothing else. A spawned
      command runs without waiting exactly when it asked for the background and
      the mode is off; for such a spawn the caller, once `fork` has given the
      child's pid, prints `SpawnNotice`. */
  function Step(st: State, ev: Event, env: Env): (o: Outcome)
    ensures ev.Line? ==> o.state == st
    ensures ev.StopSignal? ==> o.state.exitStatus == st.exitStatus && o.state.foregroundOnly != st.foregroundOnly
    ensures o.effect.Spawn? ==> (o.effect.async <==> o.effect.cmd.background && !st.foregroundOnly)
  {
    match ev
    case StopSignal =>
      var t := Toggle(st.foregroundOnly);
      Outcome(st.(foregroundOnly := t.foregroundOnly), Print(t.message))
    case Line(text) =>
      Outcome(st, LineEffect(st, text, env))
  }

  /** What the interpreter prints after `fork` for an effect, given the child's
      pid: the background-pid line for a command it does not wait for. */
  function SpawnNotice(e: Effect, childPid: nat): Option<string>
  {
    if e.Spawn? && e.async then Some(BackgroundNotice(childPid)) else None
  }

  /** A spawned command's pid is announced exactly when the command asked for
      the background and the mode is off, and the line names that child. */
  lemma NoticeIffBackground(st: State, text: string, env: Env, childPid: nat)
    requires Step(st, Line(text), env).effect.Spawn?
    ensures var e := Step(st, Line(text), env).effect;
      (SpawnNotice(e, childPid).Some? <==> e.cmd.background && !st.foregroundOnly)
      && (SpawnNotice(e, childPid).Some? ==> SpawnNotice(e, childPid).value == BackgroundNotice(childPid))
  {
  }

  /** The effects that end the interpreter: `exit`, or undefined behaviour. */
  predicate Ends(e: Effect) {
    e.Terminate? || e.Undefined?
  }

  datatype Trace = Trace(state: State, effects: seq<Effect>)

  /** A sequence of events, stopping at the first effect that ends the process. */
  function Run(st: State, evs: seq<Event>, env: Env): Trace
    decreases |evs|
  {
    if evs == [] then Trace(st, [])
    else
      var o := Step(st, evs[0], env);
      if Ends(o.effect) then Trace(o.state, [o.effect])
      else
        var rest := Run(o.state, evs[1..], env);
        Trace(rest.state, [o.effect] + rest.effects)
  }

  /** No sequence of events changes the recorded exit status. */
  lemma {:induction false} RunKeepsExitStatus(st: State, evs: seq<Event>, env: Env)
    ensures Run(st, evs, env).state.exitStatus == st.exitStatus
    decreases |evs|
  {
    if evs != [] {
      var o := Step(st, evs[0], env);
      if !Ends(o.effect) {
        RunKeepsExitStatus(o.state, evs[1..], env);
      }
    }
  }

  /** The first word of a parsed line picks its effect: `exit` ends the
      interpreter, `cd` changes to its first argument or to `HOME`, a word
      starting with `#` does nothing, and any other word runs the parsed
      command, without waiting exactly when it asked for the background and
      the mode is off. */
  lemma FirstWordEffect(st: State, text: string, env: Env)
    requires Parse(text, env.pid).Command?
    ensures var cmd := Parse(text, env.pid).cmd; var e := Step(st, Line(text), env).effect;
      && (cmd.args != [] && cmd.args[0] == "exit" ==> e == Terminate)
      && (cmd.args != [] && cmd.args[0] == "cd" ==>
            e == ChangeDirectory(if |cmd.args| > 1 then Some(cmd.args[1]) else env.home))
      && (cmd.args != [] && IsComment(cmd.args[0]) ==> e == Nothing)
      && (cmd.args != [] && !IsBuiltinName(cmd.args[0]) && !IsComment(cmd.args[0]) ==>
            e == Spawn(cmd, cmd.background && !st.foregroundOnly))
  {
    var cmd := Parse(text, env.pid).cmd;
    if cmd.args != [] && cmd.args[0] == "cd" {
      ChangeDirChoosesTarget(cmd.args[1..], env.home);
      assert ["cd"] + cmd.args[1..] == cmd.args;
    }
  }

  /** A parsed line whose first word is `status` prints the recorded status. */
  lemma StatusLinePrints(st: State, text: string, env: Env)
    requires Parse(text, env.pid).Command?
    requires var args := Parse(text, env.pid).cmd.args; args != [] && args[0] == "status"
    ensures Step(st, Line(text), env).effect == Print(StatusText(st.exitStatus))
  {
  }

  /** The status line is therefore always `exit status 0`, whatever ran before. */
  lemma StatusAlwaysZero(evs: seq<Event>, env: Env)
    ensures Step(Run(Initial, evs, env).state, Line("status"), env).effect == Print("exit status 0\n")
  {
    var st := Run(Initial, evs, env).state;
    RunKeepsExitStatus(Initial, evs, env);
    assert Parse("status", env.pid) == Command(Cmd(["status"], None, None, false)) by {
      assert !Expansion.HasMarker("status");
      SingleWordLine("status", env.pid);
    }
    StatusLinePrints(st, "status", env);
    StatusTextZero();
  }

  /** An empty line, or one of only spaces and newlines, returns before the
      loop: nothing happens and the state is kept. */
  lemma BlankLineDoesNothing(st: State, text: string, env: Env)
    requires AllDelims(text)
    ensures Step(st, Line(text), env) == Outcome(st, Nothing)
  {
    ParseBlankIff(text, env.pid);
  }

  /** A line whose words are all operators or redirection paths leaves the
      dispatcher no command to look at. */
  lemma NoWordIsUndefined(st: State, text: string, env: Env)
    requires Parse(text, env.pid).Command? && Parse(text, env.pid).cmd.args == []
    ensures Step(st, Line(text), env).effect == Undefined(MissingCommand)
  {
  }

  /** The line `&` is one such line. */
  lemma LoneAmpersandIsUndefined(st: State, env: Env)
    ensures Step(st, Line("&"), env).effect == Undefined(MissingCommand)
  {
    LoneAmpersandLine(env.pid);
    NoWordIsUndefined(st, "&", env);
  }

  /** Two stop signals restore the state; the first announces the mode it
      enters and the second the mode it leaves. */
  lemma StopTwiceRestores(st: State, env: Env)
    ensures var o1 := Step(st, StopSignal, env);
      var o2 := Step(o1.state, StopSignal, env);
      && o2.state == st
      && o1.effect == Print(if st.foregroundOnly then ExitMessage else EnterMessage)
      && o2.effect == Print(if st.foregroundOnly then EnterMessage else ExitMessage)
  {
  }

  /** For a line asking for the background, a stop signal in between turns
      waiting into not waiting and back: the same command is spawned, and only
      whether the parent waits changes. */
  lemma StopSignalFlipsWaiting(st: State, text: string, env: Env)
    requires Step(st, Line(text), env).effect.Spawn?
    requires Step(st, Line(text), env).effect.cmd.background
    ensures var e := Step(st, Line(text), env).effect;
      var e' := Step(Step(st, StopSignal, env).state, Line(text), env).effect;
      e'.Spawn? && e'.cmd == e.cmd && e'.async == !e.async
  {
  }
}
